=== FILE: README.md ===
# Audoty `AudioPlayer`: a verified model of its playback registry

Audoty is a Unity audio plugin. Its `AudioPlayer` asset holds a list of clips
and a set of playback parameters (volume, pitch range, distances, doppler
level, loop, singleton and interrupt flags, fade times, live-link flags). It
hands out a handle for every play request and tracks the voices
(`AudioSource`s) it has started in a dictionary keyed by handle id.

This project models that playback registry in Dafny:

- `audio_types.dfy` (module `AudioTypes`): clips, handles, the exceptions
  `Play` throws, and the option and result wrappers.
- `clip_lookup.dfy` (module `ClipLookup`): `FindIndex`, and the name-to-index
  resolution of `Play(string)`.
- `parameters.dfy` (module `Parameters`): the stored settings, the live-link
  flags, the voice record, and what `ConfigureParameters` writes, fully and
  live.
- `playback.dfy` (module `Playback`): the registry (`_playingSources`,
  `_nextId`, `_singletonHandle`) as a value, and the transitions Play, Stop,
  StopSingleton and a live reconfiguration make on it. It also holds the
  lemmas: ids are never reused along any run, Stop is idempotent, and
  reconfiguration reaches exactly the voices before the first destroyed one.
- `player.dfy` (module `Player`): the class `AudioPlayer`. Its fields are the
  clip list, the settings, the live links, the live-voice map, the id counter
  and the singleton handle. Its methods update the fields step by step, and
  each is proved against a definition of what it does:
  - `Play`, `PlayNamed`, `Stop`, `StopSingleton` and `OnDisable` are proved to
    make the transition of `Playback.PlayStep`, `PlayNamedStep`, `StopStep`,
    `StopSingletonStep` and `DisableStep` respectively.
  - `ReconfigurePlayingVoices` and the setters that reconfigure (`Loop`,
    `Pitch`, `Volume`, `MinDistance`, `MaxDistance`) are proved against the
    predicate `Playback.ReconfiguredAlong`.
  - `ConfigureParameters` changes no field. It is proved against
    `Parameters.Configured` and `Parameters.LiveConfigured`.
  - `VoiceDestroyed` and the setters that only store a value state their new
    fields directly.
  The object invariant `Valid()` states that every live id is below the
  counter, so a new id never collides with a live one.

Modelling choices:

- Floats are reals, and no arithmetic is done on them.
- `Random.Range` is a nondeterministic choice within its range. The pure
  transitions take the drawn value as a parameter. The class methods state
  that some admissible draw explains the outcome.
- A voice whose `AudioSource` the engine has destroyed is the `Destroyed`
  slot. The external event that destroys it is `VoiceDestroyed`.
- .NET does not specify the enumeration order of a dictionary. Where the
  source walks the live voices, that order is a parameter that must list
  every key once.
- `AudioHandle`, `AudioPool` and `Fade` are not part of this model.
  `AudioHandle.IsPlaying()` is taken to be "the id is a key of
  `_playingSources`". `AudioHandle.Stop()` is taken to be
  `Stop(id, interruptFadeTime)`.
- The `Pitch` setter compares with Unity's `Vector2 ==`. That operator is
  approximate: two vectors are equal when the squared length of their
  difference is below 1e-10.

Where the code departs from what its names and tooltips suggest, the model follows the code:

- `Play(int)` stops a live singleton that may be interrupted before it checks
  the index and the clip slot. A call that then throws `ClipNullException`,
  or an index error, has still stopped the old singleton
  (`Playback.PlayStep`).
- `OnDisable` stops the live voices only in the editor. The loop sits under
  `#if UNITY_EDITOR`. Before the loop it reads the name of every clip slot,
  so an unset slot throws and no voice is stopped (see Findings).
- `Play(string)` looks the name up with `FindIndex` as written. An unset slot
  before the first match throws a NullReferenceException (see Findings).
- The `DopplerLevel` setter only stores the value. It does not reach live
  voices, even when doppler is live-linked, although the live-link tooltip
  (Runtime/AudioPlayer.cs:157-158) says that changes apply to live voices.
- The `_singleton` tooltip (Runtime/AudioPlayer.cs:60) says only one instance
  plays. A player that is a singleton for every play keeps at most one live
  voice (`Playback.SingletonRunKeepsOneVoice`). The `Singleton` setter, however,
  stops nothing: switching it on while two voices play and then playing
  leaves three live voices (`Playback.SingletonSwitchedOnLate`).
- Every live reconfiguration draws a new pitch for each voice when the pitch
  is live-linked, whatever setter triggered it. This includes `Volume`, the
  distances and `Loop` (`Playback.ReconfigureRedrawsPitch`).

## Model

| member | source | states |
|---|---|---|
| `ClipLookup.FindIndex` | Runtime/AudioPlayer.cs:588-591 | returns the first index whose slot holds a clip named exactly `clipName`, or -1 exactly when no slot does; unset slots never match (corrected lookup, see Findings) |
| `ClipLookup.FindIndexAsWritten` | Runtime/AudioPlayer.cs:588-591 | the lookup as written throws NullReference exactly when a slot it visits before the first match is unset, and otherwise agrees with `FindIndex` |
| `ClipLookup.NullSlotBeforeMatch` | Runtime/AudioPlayer.cs:588-591 | on clips `[unset, "a"]` the as-written lookup of "a" throws while the corrected one returns 1 |
| `ClipLookup.ResolveIndex` | Runtime/AudioPlayer.cs:495-510 | empty clip list gives NoClipsFound (and only then); a null or empty name gives the random draw; any other name gives the first exact match, NullReference exactly when the lookup reaches an unset slot before a match, or ClipNotFound exactly when every slot is set and none has that name |
| `ClipLookup.ResolveNullSlotExamples` | Runtime/AudioPlayer.cs:504-506 | `Play("a")` on `[unset, "a"]` and `Play("x")` on `[unset]` both throw NullReference |
| `ClipLookup.ClipNames` | Runtime/AudioPlayer.cs:417 | reading every clip name throws NullReference exactly when some slot is unset, and otherwise gives each slot's name in order |
| `Parameters.SameRangeIsApproximatelyEqual` | Runtime/AudioPlayer.cs:270-271 | a pitch range is equal to itself under `Vector2 ==`, so setting the stored range again returns early |
| `Parameters.ConfiguredOverwritesAll` | Runtime/AudioPlayer.cs:610-628 | a non-live configuration writes every parameter and leaves the clip: what the spawned voice held before does not matter |
| `Parameters.AllLinksConfigureFully` | Runtime/AudioPlayer.cs:610-628 | with every live-link flag set, a live configuration equals a full one |
| `Parameters.NoLinksChangeNothing` | Runtime/AudioPlayer.cs:610-628 | with no live-link flag set, a live configuration leaves the voice unchanged |
| `Parameters.LiveConfiguredIdempotent` | Runtime/AudioPlayer.cs:610-628 | repeating a live configuration with the same draw changes nothing more |
| `Playback.StopStep` | Runtime/AudioPlayer.cs:593-607 | Stop reports true exactly when the id was live, removes exactly that key, keeps every other entry, the counter and the singleton handle, and preserves the id invariant |
| `Playback.StopTwice` | Runtime/AudioPlayer.cs:593-607 | a second Stop of the same id reports false and changes nothing |
| `Playback.StopSingletonStep` | Runtime/AudioPlayer.cs:476-480 | a live singleton handle is removed from the registry and every other voice keeps its entry and value; in every other case nothing changes |
| `Playback.PlayStep` | Runtime/AudioPlayer.cs:524-573 | empty clips: NoClipsFound, nothing changes; live singleton with interrupts off or the same clip: the existing handle, nothing changes; otherwise the old singleton is stopped first; bad index or unset slot: the error, no id consumed, nothing added; success: handle id is the old counter, counter +1, a fully configured voice of that clip registered under it, singleton handle updated when singleton; other entries untouched; id invariant preserved |
| `Playback.PlayNamedStep` | Runtime/AudioPlayer.cs:492-513 | empty clips, a name whose lookup reaches an unset slot (NullReference), and a name no slot holds fail without changing anything; a name never yields an index error; a new handle for a name plays the first clip of that name; the returned handle is playing |
| `Playback.PlayNamedNullSlotExample` | Runtime/AudioPlayer.cs:504-506 | with an unset first slot, `Play("a")` throws although slot 1 holds "a", and the registry is unchanged |
| `Playback.SingletonWithoutInterruptExample` | Runtime/AudioPlayer.cs:533-537 | singleton without interrupts, clips "a" and "b": playing "a" returns h0, then playing "b" or "a" returns h0 again and changes nothing |
| `Playback.FirstDestroyed` | Runtime/AudioPlayer.cs:748-751 | the position of the first destroyed voice in the enumeration order: every earlier voice is alive, and it is the end of the order when all are alive |
| `Playback.ReconfigureReachesEveryVoice` | Runtime/AudioPlayer.cs:746-755 | with no destroyed voice, a reconfiguration live-configures every voice, whatever the order |
| `Playback.ReconfigureWithoutLinks` | Runtime/AudioPlayer.cs:746-755 | with no live-link flag set, a reconfiguration leaves every voice as it was |
| `Playback.ReconfigureRedrawsPitch` | Runtime/AudioPlayer.cs:612-613 | with the pitch live-linked, a reconfiguration triggered by another setter may change a live voice's pitch |
| `Playback.IdsNeverReused` | Runtime/AudioPlayer.cs:548-549 | along any run of plays and stops, new ids strictly increase, lie between the starting and final counter, were never live at the start, and the id invariant holds at the end |
| `Playback.OnlySingletonLiveAtMostOne` | Runtime/AudioPlayer.cs:60 | when every registered id is the singleton handle's, no two registered ids differ: at most one voice is live |
| `Playback.PlayKeepsSingleton` | Runtime/AudioPlayer.cs:533-566 | a play by a singleton player keeps every registered id equal to the singleton handle's: the old singleton is returned or stopped before the new voice becomes the handle |
| `Playback.StopKeepsSingleton` | Runtime/AudioPlayer.cs:593-607 | stopping any id keeps the singleton promise |
| `Playback.StopSingletonKeepsSingleton` | Runtime/AudioPlayer.cs:476-480 | for a singleton player under the promise, StopSingleton leaves no voice live |
| `Playback.SingletonRunKeepsOneVoice` | Runtime/AudioPlayer.cs:60 | along any run of plays and stops in which every play is made as a singleton, starting within the promise, at most one voice is live at the end |
| `Playback.SingletonSwitchedOnLate` | Runtime/AudioPlayer.cs:218-227 | with two voices live and no singleton handle, a play by a player just switched to singleton gets id 2 and leaves ids 0, 1 and 2 live |
| `Player.AudioPlayer.constructor` | Runtime/AudioPlayer.cs:190-193 | a player starts with an empty registry, counter 0 and no singleton handle |
| `Player.AudioPlayer.Stop` | Runtime/AudioPlayer.cs:593-607 | updates the map in place exactly as `StopStep` and returns its answer |
| `Player.AudioPlayer.StopSingleton` | Runtime/AudioPlayer.cs:476-480 | updates the map exactly as `StopSingletonStep` |
| `Player.AudioPlayer.ConfigureParameters` | Runtime/AudioPlayer.cs:610-628 | the pitch is drawn within the range whenever it is written; a non-live call writes every parameter, a live call only the linked ones |
| `Player.AudioPlayer.Play` | Runtime/AudioPlayer.cs:524-573 | keeps the id invariant; the result and new registry are those of `PlayStep` for some admissible pitch draw |
| `Player.AudioPlayer.PlayNamed` | Runtime/AudioPlayer.cs:492-513 | keeps the id invariant; the result and new registry are those of `PlayNamedStep` (as-written lookup) for some admissible index and pitch draws |
| `Player.AudioPlayer.ReconfigurePlayingVoices` | Runtime/AudioPlayer.cs:746-755 | walks the voices in enumeration order, live-configures each one until the first destroyed voice, and leaves that voice and the rest unchanged |
| `Player.AudioPlayer.OnDisable` | Runtime/AudioPlayer.cs:414-425 | makes the transition of `DisableStep`: in the editor with every slot set, every live id is stopped and the map ends empty; in the editor with an unset slot, NullReference is thrown and nothing is stopped; in a build, nothing changes |
| `Playback.DisableStep` | Runtime/AudioPlayer.cs:414-425 | in the editor, throws NullReference exactly when some clip slot is unset, and then changes nothing; otherwise empties the live-voice map and keeps the counter and singleton handle; in a build, changes nothing |
| `Playback.DisableStepCorrected` | Runtime/AudioPlayer.cs:414-425 | with the names read null-safely, disabling in the editor always empties the map, keeps the counter and singleton handle, and agrees with `DisableStep` on every clip list for which that does not throw (corrected behaviour, see Findings) |
| `Playback.UnsetSlotBlocksDisable` | Runtime/AudioPlayer.cs:417 | with clips `[unset]` and live id 0, disabling in the editor throws and id 0 stays registered, while the corrected version stops it |
| `Player.AudioPlayer.VoiceDestroyed` | Runtime/AudioPlayer.cs:750-751 | a destroyed `AudioSource` stays registered as a null entry |
| `Player.AudioPlayer.SetLoop` | Runtime/AudioPlayer.cs:203-216 | setting the stored value changes nothing; any other value is stored and the live voices are reconfigured |
| `Player.AudioPlayer.SetPitch` | Runtime/AudioPlayer.cs:265-277 | a value equal under `Vector2 ==` changes nothing; any other is stored and the live voices are reconfigured |
| `Player.AudioPlayer.SetVolume` | Runtime/AudioPlayer.cs:229-239 | always stores the value and reconfigures the live voices |
| `Player.AudioPlayer.SetMinDistance` | Runtime/AudioPlayer.cs:241-251 | always stores the value and reconfigures the live voices |
| `Player.AudioPlayer.SetMaxDistance` | Runtime/AudioPlayer.cs:253-263 | always stores the value and reconfigures the live voices |
| `Player.AudioPlayer.SetSingleton` | Runtime/AudioPlayer.cs:218-227 | stores the flag; no voice and no registry entry changes |
| `Player.AudioPlayer.SetDopplerLevel` | Runtime/AudioPlayer.cs:279-283 | stores the value; live voices keep their doppler level |
| `Player.AudioPlayer.SetAllowInterrupt` | Runtime/AudioPlayer.cs:289-293 | stores the flag only |
| `Player.AudioPlayer.SetPlayFadeTime` | Runtime/AudioPlayer.cs:298-302 | stores the value only |
| `Player.AudioPlayer.SetInterruptFadeTime` | Runtime/AudioPlayer.cs:307-311 | stores the value only |

## Left out

- Persistence through PlayerPrefs is left out: the `Persistent*` properties, `LoadParameters`, `SaveParameters`, `OnEnable`, and the `SaveParameters()` call the setters make when play-mode changes are kept. It is a foreign key-value store with float encoding. `LoadParameters` reaches the registry only through the `Loop`, `Volume`, `MinDistance`, `MaxDistance` and `Pitch` setters, which are modelled: each such load reconfigures the live voices, and through `Volume`, which has no equality check, redraws their pitch when the pitch is live-linked.
- Editor-only plumbing is left out: `CheckSaveKeyConflict` (also called in `Play(int)` after the empty-list check), `InitializeOnLoad`, `OnValidate`, the `ClipNames` property itself (its read of every clip name at line 417 is modelled, because it can stop `OnDisable`), `_lastPlayedAudio`, `StopLastPlayingClip`, `PlayForget`, `PlaySpecific` and the inspector attributes.
- `AudioPool.Spawn` is not part of this model. `Parameters.ResetVoice` stands for the voice it returns, and every field of that voice is overwritten.
- The 2D/3D placement (position, tracking transform) is left out.
- The lifetime `clip.length + delay` (or -1 when looping) passed to the pool is left out.
- Reclaiming a voice when its lifetime ends is left out. The pool's source is not part of this model, so neither is how that removes an id from the registry.
- The `delay` parameter of `Play` is left out: `PlayDelayed` versus `Play`, and the fade-in offset. A delayed voice is registered, and so counts as playing, at once, which the model shows.
- `Fade.In` and `Fade.Out` are audible ramps that do not touch the registry. They are left out, and with them the effect of the `fadeTime`, `playFadeTime` and `interruptFadeTime` values.
- The mixer-group routing through `AudioManager.GetAudioMixerGroup` at the end of `ConfigureParameters` is a foreign call and is left out.
- `Playback.PlayStep`: the mixer lookup reads `_audioMixer.name` (line 631), which throws when an `AudioManager` exists and no mixer group is assigned. In `Play(int)` that throw comes after the id is taken (line 549) and before the voice is registered (line 563). The model does not include it, so "a failed play allocates no id" holds only for the errors the model covers. The same throw would stop a live reconfiguration at its first live voice.
- `Playback.PlayStep`: `_nextId` is an unbounded integer. The 32-bit wrap-around after 2^31 plays is not modelled, and the fresh-id guarantees assume it does not happen.
- `Player.AudioPlayer.ConfigureParameters`: states only that the drawn pitch lies in the range, not that `Random.Range` draws it uniformly.
- A null `_clips` list and a null name passed straight to the public `FindIndex` are not modelled. The clip list always exists, and names are non-null strings.
- The owner reference inside `AudioHandle` is left out. A handle is used only with the player that issued it.

## Findings

| source | as written | input that shows it | evidently intended | confidence | as-written member | corrected member |
|---|---|---|---|---|---|---|
| Runtime/AudioPlayer.cs:588-591 | `FindIndex` evaluates `x => x.name == clipName` on every slot it visits. An unset slot before the first match therefore throws a NullReferenceException out of `Play(string)`, instead of the lookup skipping it or reporting ClipNotFound. | clips `[unset, "a"]`, `Play("a")` | skip unset slots: return 1 here, and -1 (then ClipNotFound) when no set slot matches. `Play(int)` checks for unset slots at lines 545-546, so they are expected in the list. | medium, not executed | `ClipLookup.FindIndexAsWritten`, used by `ClipLookup.ResolveIndex`, `Playback.PlayNamedStep` and `Player.AudioPlayer.PlayNamed` (exhibited by `ClipLookup.NullSlotBeforeMatch`, `ClipLookup.ResolveNullSlotExamples`, `Playback.PlayNamedNullSlotExample`) | `ClipLookup.FindIndex` |
| Runtime/AudioPlayer.cs:417 | In the editor, `OnDisable` reads `x.name` of every clip slot to refresh the inspector's name list before it stops the live voices. An unset slot throws there, and no voice is stopped. | clips `[unset]`, one live voice with id 0, disabled in the editor | read the names null-safely, so that disabling always stops every live voice | medium, not executed | `Playback.DisableStep` and `Player.AudioPlayer.OnDisable` (exhibited by `Playback.UnsetSlotBlocksDisable`) | `Playback.DisableStepCorrected` |

=== FILE: audio_types.dfy ===
/**
 * Values shared by every part of the audio player model: clips, handles,
 * the exceptions the player throws, and the optional and result wrappers that stand
 * for C#'s nullable references and exceptions.
 */
module AudioTypes {

  /** A nullable reference or value: `None` is C#'s `null`. */
  datatype Option<+T> = None | Some(value: T)

  /** An audio clip asset, as far as the player reads it: its name and its length in seconds. */
  datatype Clip = Clip(name: string, length: real)

  /**
   * The caller-facing token for one play request: the id the player allocated
   * and the index of the clip that was requested. Every handle belongs to one
   * player, so the owner reference is implicit.
   */
  datatype Handle = Handle(id: int, clipIndex: int)

  /** The exceptions Play, and the clip-name read of OnDisable, can throw. */
  datatype PlayError =
    | NoClipsFound              // NoClipsFoundException: the clip list is empty
    | ClipNotFound(clipName: string) // ClipNotFoundException: no clip has that name
    | ClipNull(index: int)      // ClipNullException: the slot at the index is unset
    | IndexOutOfRange(index: int)    // ArgumentOutOfRangeException from indexing the clip list
    | NullReference             // NullReferenceException from reading the name of an unset slot

  /** Either the value a call returns or the exception it throws. */
  datatype Result<+T> = Ok(value: T) | Err(error: PlayError)
}

=== FILE: clip_lookup.dfy ===
/**
 * Finding a clip of an audio player by name, and turning the clip name that
 * `Play(string)` receives into the index that `Play(int)` plays.
 */
module ClipLookup {
  import opened AudioTypes

  /** Slot `c` of a clip list holds a clip whose name is exactly `clipName` (case-sensitive). */
  predicate Named(c: Option<Clip>, clipName: string) {
    c.Some? && c.value.name == clipName
  }

  /**
   * The index of the first slot holding a clip named `clipName`, or -1 when
   * there is none. Unset slots never match and are skipped.
   */
  function FindIndex(clips: seq<Option<Clip>>, clipName: string): (r: int)
    ensures -1 <= r < |clips|
    ensures r >= 0 ==> Named(clips[r], clipName)
    ensures r >= 0 ==> forall j :: 0 <= j < r ==> !Named(clips[j], clipName)
    ensures r == -1 <==> forall j :: 0 <= j < |clips| ==> !Named(clips[j], clipName)
  {
    if clips == [] then -1
    else if Named(clips[0], clipName) then 0
    else
      var k := FindIndex(clips[1..], clipName);
      if k == -1 then -1 else k + 1
  }

  /**
   * `FindIndex` as the source writes it: `List.FindIndex` with the predicate
   * `x => x.name == clipName`, which reads the name of every slot it visits,
   * so an unset slot visited before the first match throws a
   * NullReferenceException. It agrees with FindIndex on every clip list whose
   * visited slots are all set.
   */
  function FindIndexAsWritten(clips: seq<Option<Clip>>, clipName: string): (r: Result<int>)
    ensures r.Err? ==> r.error == NullReference
    ensures r.Ok? ==> r.value == FindIndex(clips, clipName)
    ensures r.Ok? <==> forall k :: 0 <= k < |clips| && Visited(clips, clipName, k) ==> clips[k].Some?
  {
    if clips == [] then Ok(-1)
    else if clips[0].None? then Err(NullReference)
    else if clips[0].value.name == clipName then Ok(0)
    else
      match FindIndexAsWritten(clips[1..], clipName)
      case Err(e) => Err(e)
      case Ok(k) => if k == -1 then Ok(-1) else Ok(k + 1)
  }

  /** `List.FindIndex` evaluates its predicate on slot `k`: no earlier slot matches. */
  predicate Visited(clips: seq<Option<Clip>>, clipName: string, k: int)
    requires 0 <= k < |clips|
  {
    var i := FindIndex(clips, clipName);
    i == -1 || k <= i
  }

  /**
   * The as-written lookup throws on a list whose first slot is unset even
   * though a later slot holds the requested clip; the corrected lookup finds it.
   */
  lemma NullSlotBeforeMatch()
    ensures FindIndexAsWritten([None, Some(Clip("a", 1.0))], "a") == Err(NullReference)
    ensures FindIndex([None, Some(Clip("a", 1.0))], "a") == 1
  {
  }

  /** `string.IsNullOrEmpty`. */
  predicate IsNullOrEmpty(clipName: Option<string>) {
    clipName.None? || clipName.value == ""
  }

  /**
   * The index `Play(string)` passes on to `Play(int)`, or the exception it
   * throws first. `draw` is the value of `Random.Range(0, count)`, used only
   * when no name is given. A name is looked up with the lookup as written,
   * so an unset slot reached before the first match throws.
   */
  function ResolveIndex(clips: seq<Option<Clip>>, clipName: Option<string>, draw: int): (r: Result<int>)
    requires |clips| > 0 ==> 0 <= draw < |clips|
    ensures |clips| == 0 <==> r == Err(NoClipsFound)
    ensures r.Ok? ==> 0 <= r.value < |clips|
    ensures |clips| > 0 && IsNullOrEmpty(clipName) ==> r == Ok(draw)
    ensures |clips| > 0 && !IsNullOrEmpty(clipName) && r.Ok? ==>
              && r.value == FindIndex(clips, clipName.value)
              && Named(clips[r.value], clipName.value)
              && forall j :: 0 <= j < r.value ==> !Named(clips[j], clipName.value)
    ensures |clips| > 0 && !IsNullOrEmpty(clipName) ==>
              (r == Err(NullReference) <==>
               exists k :: 0 <= k < |clips| && Visited(clips, clipName.value, k) && clips[k].None?)
    ensures |clips| > 0 && !IsNullOrEmpty(clipName) ==>
              (r == Err(ClipNotFound(clipName.value)) <==>
               forall j :: 0 <= j < |clips| ==> clips[j].Some? && !Named(clips[j], clipName.value))
  {
    if |clips| == 0 then Err(NoClipsFound)
    else if IsNullOrEmpty(clipName) then Ok(draw)
    else
      match FindIndexAsWritten(clips, clipName.value)
      case Err(e) => Err(e)
      case Ok(index) => if index == -1 then Err(ClipNotFound(clipName.value)) else Ok(index)
  }

  /** On clips `[unset, "a"]`, `Play("a")` throws before any index is resolved; so does `Play("x")` on `[unset]`. */
  lemma ResolveNullSlotExamples()
    ensures ResolveIndex([None, Some(Clip("a", 1.0))], Some("a"), 0) == Err(NullReference)
    ensures ResolveIndex([None], Some("x"), 0) == Err(NullReference)
  {
  }

  /**
   * `_clips.Select(x => x.name).ToArray()` as the source writes it: the names
   * of all slots in order, or the NullReferenceException reading the name of
   * the first unset slot throws.
   */
  function ClipNames(clips: seq<Option<Clip>>): (r: Result<seq<string>>)
    ensures r.Err? <==> exists i :: 0 <= i < |clips| && clips[i].None?
    ensures r.Err? ==> r.error == NullReference
    ensures r.Ok? ==> |r.value| == |clips|
    ensures r.Ok? ==> forall i :: 0 <= i < |clips| ==> clips[i].Some? && r.value[i] == clips[i].value.name
  {
    if clips == [] then Ok([])
    else if clips[0].None? then Err(NullReference)
    else
      match ClipNames(clips[1..])
      case Err(e) => Err(e)
      case Ok(rest) => Ok([clips[0].value.name] + rest)
  }
}

=== FILE: parameters.dfy ===
/**
 * The playback parameters of an audio player, the per-parameter live-link
 * flags, and what configuring a voice with them writes.
 *
 * Volume, pitch, distances and the doppler level are floats in the source;
 * here they are reals on which no arithmetic is done.
 */
module Parameters {
  import opened AudioTypes

  /** The pitch range `_pitch`: a play draws its pitch between `x` and `y`. */
  datatype PitchRange = PitchRange(x: real, y: real)

  /**
   * `p` is a value `Random.Range(range.x, range.y)` can return: the float
   * overload is inclusive at both ends and swaps the bounds when `x > y`.
   */
  predicate PitchIn(p: real, range: PitchRange) {
    if range.x <= range.y then range.x <= p <= range.y else range.y <= p <= range.x
  }

  /**
   * Unity's `Vector2 ==`, which the `Pitch` setter uses: the two vectors are
   * equal when the squared length of their difference is below the square
   * of 1e-5.
   */
  predicate ApproximatelyEqual(a: PitchRange, b: PitchRange) {
    var dx := a.x - b.x;
    var dy := a.y - b.y;
    dx * dx + dy * dy < 0.0000000001
  }

  /** A range is equal to itself, so setting the stored pitch range again is a no-op. */
  lemma SameRangeIsApproximatelyEqual(a: PitchRange)
    ensures ApproximatelyEqual(a, a)
  {
  }

  /** The stored parameters of a player (the serialized fields the setters write). */
  datatype Settings = Settings(
    loop: bool,
    singleton: bool,
    allowInterrupt: bool,
    volume: real,
    minDistance: real,
    maxDistance: real,
    pitch: PitchRange,
    dopplerLevel: real,
    playFadeTime: real,
    interruptFadeTime: real)

  /** The live-link flags: which parameters a reconfiguration writes to voices already playing. */
  datatype LiveLinks = LiveLinks(
    loop: bool,
    volume: bool,
    distances: bool,
    pitch: bool,
    dopplerLevel: bool)

  /** The parameters of one voice (an `AudioSource`) that the player writes. */
  datatype Voice = Voice(
    pitch: real,
    volume: real,
    minDistance: real,
    maxDistance: real,
    loop: bool,
    dopplerLevel: real,
    clip: Option<Clip>)

  /**
   * The voice the pool hands out for a new play. The pool is not part of this
   * model; every field of this voice is overwritten before it is registered.
   */
  const ResetVoice: Voice := Voice(1.0, 1.0, 1.0, 500.0, false, 0.0, None)

  /**
   * `ConfigureParameters(source, live: false)` when `Random.Range` draws
   * `pitch`: every parameter is written, the clip is left alone.
   */
  function Configured(source: Voice, s: Settings, pitch: real): Voice {
    source.(pitch := pitch, volume := s.volume, minDistance := s.minDistance,
            maxDistance := s.maxDistance, loop := s.loop, dopplerLevel := s.dopplerLevel)
  }

  /**
   * `ConfigureParameters(source, live: true)` when `Random.Range` draws
   * `pitch`: only parameters whose live-link flag is set are written.
   */
  function LiveConfigured(source: Voice, s: Settings, links: LiveLinks, pitch: real): Voice {
    source.(
      pitch := if links.pitch then pitch else source.pitch,
      volume := if links.volume then s.volume else source.volume,
      minDistance := if links.distances then s.minDistance else source.minDistance,
      maxDistance := if links.distances then s.maxDistance else source.maxDistance,
      loop := if links.loop then s.loop else source.loop,
      dopplerLevel := if links.dopplerLevel then s.dopplerLevel else source.dopplerLevel)
  }

  /** The voice registered for a new play of `clip`: fully configured, then given the clip. */
  function FreshVoice(s: Settings, pitch: real, clip: Clip): Voice {
    Configured(ResetVoice, s, pitch).(clip := Some(clip))
  }

  /** A full configuration writes every parameter: what the voice held before does not matter. */
  lemma ConfiguredOverwritesAll(a: Voice, b: Voice, s: Settings, pitch: real)
    ensures Configured(a, s, pitch).(clip := b.clip) == Configured(b, s, pitch)
    ensures Configured(a, s, pitch).clip == a.clip
    ensures Configured(a, s, pitch).volume == s.volume && Configured(a, s, pitch).loop == s.loop
  {
  }

  /** With every live-link flag set, a live configuration is a full one. */
  lemma AllLinksConfigureFully(v: Voice, s: Settings, pitch: real)
    ensures LiveConfigured(v, s, LiveLinks(true, true, true, true, true), pitch) == Configured(v, s, pitch)
  {
  }

  /** With no live-link flag set, a live configuration changes nothing. */
  lemma NoLinksChangeNothing(v: Voice, s: Settings, pitch: real)
    ensures LiveConfigured(v, s, LiveLinks(false, false, false, false, false), pitch) == v
  {
  }

  /** Applying a live configuration twice with the same draw is the same as applying it once. */
  lemma LiveConfiguredIdempotent(v: Voice, s: Settings, links: LiveLinks, pitch: real)
    ensures LiveConfigured(LiveConfigured(v, s, links, pitch), s, links, pitch) == LiveConfigured(v, s, links, pitch)
  {
  }
}

=== FILE: playback.dfy ===
/**
 * The playback registry of one audio player as a value: the live voices by
 * handle id, the id counter and the current singleton handle, with the
 * transitions Play, Stop and StopSingleton make on it. The class in
 * Player is proved to make exactly these transitions.
 */
module Playback {
  import opened AudioTypes
  import opened Parameters
  import ClipLookup

  /**
   * A registered voice: `Alive` while its `AudioSource` exists, `Destroyed`
   * once the engine has destroyed it (the source compares it to null).
   */
  datatype Slot = Alive(voice: Voice) | Destroyed

  /** `_playingSources`, `_nextId` and `_singletonHandle`. */
  datatype Registry = Registry(playing: map<int, Slot>, nextId: int, singletonHandle: Option<Handle>)

  /** The registry a player starts with. */
  const Empty: Registry := Registry(map[], 0, None)

  /** Every registered id was allocated already: ids below the counter are the only ones in use. */
  predicate Valid(r: Registry) {
    forall id :: id in r.playing ==> id < r.nextId
  }

  /** `AudioHandle.IsPlaying`: the handle's id is still registered. */
  predicate IsPlaying(r: Registry, h: Handle) {
    h.id in r.playing
  }

  /** The player is a singleton and its singleton handle is still playing. */
  predicate SingletonLive(r: Registry, s: Settings) {
    s.singleton && r.singletonHandle.Some? && IsPlaying(r, r.singletonHandle.value)
  }

  /** Play returns the live singleton handle instead of starting a voice. */
  predicate ShortCircuits(r: Registry, s: Settings, index: int) {
    SingletonLive(r, s) && (!s.allowInterrupt || index == r.singletonHandle.value.clipIndex)
  }

  /** Play stops the live singleton handle before starting a voice. */
  predicate Interrupts(r: Registry, s: Settings, index: int) {
    SingletonLive(r, s) && !ShortCircuits(r, s, index)
  }

  /** `Stop(id, fadeTime)`: whether the id was live, and the registry without it. */
  function StopStep(r: Registry, id: int): (out: (bool, Registry))
    ensures out.0 <==> id in r.playing
    ensures out.1.playing.Keys == r.playing.Keys - {id}
    ensures forall k :: k in out.1.playing ==> out.1.playing[k] == r.playing[k]
    ensures out.1.nextId == r.nextId && out.1.singletonHandle == r.singletonHandle
    ensures Valid(r) ==> Valid(out.1)
  {
    if id in r.playing then (true, r.(playing := r.playing - {id})) else (false, r)
  }

  /** A second Stop of the same id reports false and changes nothing. */
  lemma StopTwice(r: Registry, id: int)
    ensures var r1 := StopStep(r, id).1; StopStep(r1, id) == (false, r1)
  {
  }

  /** `StopSingleton()`: stops the singleton handle when the player is a singleton and it is live. */
  function StopSingletonStep(r: Registry, s: Settings): (r': Registry)
    ensures !SingletonLive(r, s) ==> r' == r
    ensures SingletonLive(r, s) ==>
              r.singletonHandle.value.id !in r'.playing &&
              r'.playing.Keys == r.playing.Keys - {r.singletonHandle.value.id}
    ensures forall k :: k in r'.playing ==> k in r.playing && r'.playing[k] == r.playing[k]
    ensures r'.nextId == r.nextId && r'.singletonHandle == r.singletonHandle
    ensures Valid(r) ==> Valid(r')
  {
    if SingletonLive(r, s) then StopStep(r, r.singletonHandle.value.id).1 else r
  }

  /**
   * `Play(int index)` when `Random.Range` draws `pitch` for the new voice:
   * the handle returned (or the exception thrown) and the registry after.
   */
  function PlayStep(r: Registry, clips: seq<Option<Clip>>, s: Settings, index: int, pitch: real)
    : (out: (Result<Handle>, Registry))
    // An empty clip list fails before anything else and changes nothing.
    ensures |clips| == 0 ==> out == (Err(NoClipsFound), r)
    // A live singleton that may not be interrupted, or is asked for the clip it
    // is already playing, is returned as it is.
    ensures |clips| > 0 && ShortCircuits(r, s, index) ==> out == (Ok(r.singletonHandle.value), r)
    // Any other live singleton is stopped first, whether or not the play then succeeds.
    ensures Valid(r) && |clips| > 0 && Interrupts(r, s, index) ==> r.singletonHandle.value.id !in out.1.playing
    // Past the arbitration, the play succeeds exactly when the index names a set slot.
    ensures |clips| > 0 && !ShortCircuits(r, s, index) ==>
              && (!(0 <= index < |clips|) ==> out.0 == Err(IndexOutOfRange(index)))
              && (0 <= index < |clips| && clips[index].None? ==> out.0 == Err(ClipNull(index)))
              && (out.0.Ok? <==> 0 <= index < |clips| && clips[index].Some?)
    // A failed play allocates no id, registers nothing and keeps the singleton handle.
    ensures out.0.Err? ==>
              out.1.nextId == r.nextId && out.1.singletonHandle == r.singletonHandle &&
              out.1.playing.Keys <= r.playing.Keys
    // A new play gets the current counter value as id, advances the counter by one,
    // registers a fully configured voice of the requested clip under that id, and
    // becomes the singleton handle when the player is a singleton.
    ensures out.0.Ok? && !ShortCircuits(r, s, index) ==>
              && out.0.value == Handle(r.nextId, index)
              && out.1.nextId == r.nextId + 1
              && r.nextId in out.1.playing
              && out.1.playing[r.nextId] == Alive(FreshVoice(s, pitch, clips[index].value))
              && out.1.singletonHandle == (if s.singleton then Some(out.0.value) else r.singletonHandle)
    // The counter advances by one or not at all, and only for a new handle.
    ensures out.1.nextId == r.nextId || (out.1.nextId == r.nextId + 1 && out.0 == Ok(Handle(r.nextId, index)))
    // The handle returned is playing afterwards.
    ensures out.0.Ok? ==> IsPlaying(out.1, out.0.value)
    // Other registered voices are untouched; only the new id may be added.
    ensures forall k :: k in out.1.playing ==> k in r.playing || k == r.nextId
    ensures forall k :: k in r.playing && k != r.nextId && !(Interrupts(r, s, index) && k == r.singletonHandle.value.id) ==>
              k in out.1.playing && out.1.playing[k] == r.playing[k]
    ensures Valid(r) ==> Valid(out.1)
  {
    if |clips| == 0 then (Err(NoClipsFound), r)
    else if ShortCircuits(r, s, index) then (Ok(r.singletonHandle.value), r)
    else
      var r1 := if Interrupts(r, s, index) then StopStep(r, r.singletonHandle.value.id).1 else r;
      if !(0 <= index < |clips|) then (Err(IndexOutOfRange(index)), r1)
      else if clips[index].None? then (Err(ClipNull(index)), r1)
      else
        var h := Handle(r1.nextId, index);
        var voice := FreshVoice(s, pitch, clips[index].value);
        (Ok(h), Registry(r1.playing[h.id := Alive(voice)], r1.nextId + 1,
                         if s.singleton then Some(h) else r1.singletonHandle))
  }

  /**
   * `Play(string clipName)`: resolve the name (drawing `draw` for a missing
   * name), then play that index with pitch `pitch`.
   */
  function PlayNamedStep(r: Registry, clips: seq<Option<Clip>>, s: Settings, clipName: Option<string>,
                         draw: int, pitch: real): (out: (Result<Handle>, Registry))
    requires |clips| > 0 ==> 0 <= draw < |clips|
    ensures |clips| == 0 ==> out == (Err(NoClipsFound), r)
    // A name whose lookup reaches an unset slot throws, and nothing changes.
    ensures (|clips| > 0 && !ClipLookup.IsNullOrEmpty(clipName) &&
             ClipLookup.FindIndexAsWritten(clips, clipName.value).Err?) ==>
              out == (Err(NullReference), r)
    // A name that no slot holds, in a list with every slot set, is not found, and nothing changes.
    ensures (|clips| > 0 && !ClipLookup.IsNullOrEmpty(clipName) &&
             forall j :: 0 <= j < |clips| ==> clips[j].Some? && !ClipLookup.Named(clips[j], clipName.value)) ==>
              out == (Err(ClipNotFound(clipName.value)), r)
    // The index played is always in range.
    ensures out.0.Err? ==> !out.0.error.IndexOutOfRange?
    ensures out.0.Ok? ==> IsPlaying(out.1, out.0.value)
    // A new handle for a name plays the first clip of that name.
    ensures out.0.Ok? && !ClipLookup.IsNullOrEmpty(clipName) && out.1.nextId != r.nextId ==>
              && 0 <= out.0.value.clipIndex < |clips|
              && out.0.value.clipIndex == ClipLookup.FindIndex(clips, clipName.value)
              && ClipLookup.Named(clips[out.0.value.clipIndex], clipName.value)
    ensures Valid(r) ==> Valid(out.1)
  {
    match ClipLookup.ResolveIndex(clips, clipName, draw)
    case Err(e) => (Err(e), r)
    case Ok(index) => PlayStep(r, clips, s, index, pitch)
  }

  /**
   * With an unset first slot, `Play("a")` throws although slot 1 holds "a",
   * and the registry is left as it was.
   */
  lemma PlayNamedNullSlotExample(s: Settings, pitch: real)
    ensures PlayNamedStep(Empty, [None, Some(Clip("a", 1.0))], s, Some("a"), 0, pitch) == (Err(NullReference), Empty)
  {
  }

  /**
   * `OnDisable()`: in the editor the clip names are read first, which throws
   * on an unset slot before any voice is stopped; otherwise every registered
   * id is stopped. In a built player nothing happens.
   */
  function DisableStep(r: Registry, clips: seq<Option<Clip>>, inEditor: bool): (out: (Option<PlayError>, Registry))
    ensures !inEditor ==> out == (None, r)
    ensures inEditor ==> (out.0 == Some(NullReference) <==> exists i :: 0 <= i < |clips| && clips[i].None?)
    ensures out.0.Some? ==> out.1 == r
    ensures inEditor && out.0.None? ==>
              && out.1.playing == map[]
              && out.1.nextId == r.nextId && out.1.singletonHandle == r.singletonHandle
    ensures Valid(r) ==> Valid(out.1)
  {
    if !inEditor then (None, r)
    else
      match ClipLookup.ClipNames(clips)
      case Err(e) => (Some(e), r)
      case Ok(_) => (None, r.(playing := map[]))
  }

  /**
   * `OnDisable()` with the clip names read null-safely (`x?.name`), so that
   * the read cannot throw: in the editor every registered id is stopped,
   * whatever the clip list holds.
   */
  function DisableStepCorrected(r: Registry, inEditor: bool): (r': Registry)
    ensures inEditor ==> r'.playing == map[]
    ensures !inEditor ==> r' == r
    ensures r'.nextId == r.nextId && r'.singletonHandle == r.singletonHandle
    ensures forall clips :: DisableStep(r, clips, inEditor).0.None? ==> r' == DisableStep(r, clips, inEditor).1
  {
    if inEditor then r.(playing := map[]) else r
  }

  /**
   * A player with one live voice and an unset clip slot: disabling it in the
   * editor throws and the voice stays registered; the corrected version stops it.
   */
  lemma UnsetSlotBlocksDisable(v: Voice)
    ensures var r := Registry(map[0 := Alive(v)], 1, None);
      && DisableStep(r, [None], true) == (Some(NullReference), r)
      && 0 in DisableStep(r, [None], true).1.playing
      && DisableStepCorrected(r, true).playing == map[]
  {
  }

  /**
   * The example of a singleton that may not be interrupted, with clips "a"
   * and "b": playing "a" returns a new handle h0; while h0 plays, playing "b"
   * and playing "a" again both return h0 and leave the registry as it was.
   */
  lemma SingletonWithoutInterruptExample(s: Settings, pitch: real)
    requires s.singleton && !s.allowInterrupt
    ensures var clips := [Some(Clip("a", 1.0)), Some(Clip("b", 2.0))];
      var (first, r1) := PlayNamedStep(Empty, clips, s, Some("a"), 0, pitch);
      && first == Ok(Handle(0, 0))
      && PlayNamedStep(r1, clips, s, Some("b"), 0, pitch) == (first, r1)
      && PlayNamedStep(r1, clips, s, Some("a"), 0, pitch) == (first, r1)
  {
  }

  /**
   * The singleton promise: the only registered id, if any, is that of the
   * singleton handle. So at most one voice of the player is live.
   */
  predicate OnlySingletonLive(r: Registry) {
    forall k :: k in r.playing ==> r.singletonHandle.Some? && r.singletonHandle.value.id == k
  }

  /** Under the singleton promise no two registered ids differ. */
  lemma OnlySingletonLiveAtMostOne(r: Registry)
    requires OnlySingletonLive(r)
    ensures forall a, b :: a in r.playing && b in r.playing ==> a == b
  {
  }

  /** A play by a singleton player keeps the singleton promise. */
  lemma PlayKeepsSingleton(r: Registry, clips: seq<Option<Clip>>, s: Settings, index: int, pitch: real)
    requires Valid(r) && s.singleton && OnlySingletonLive(r)
    ensures OnlySingletonLive(PlayStep(r, clips, s, index, pitch).1)
  {
  }

  /** Stopping an id keeps the singleton promise. */
  lemma StopKeepsSingleton(r: Registry, id: int)
    requires OnlySingletonLive(r)
    ensures OnlySingletonLive(StopStep(r, id).1)
  {
  }

  /** Stopping the singleton keeps the singleton promise, and leaves nothing live. */
  lemma StopSingletonKeepsSingleton(r: Registry, s: Settings)
    requires OnlySingletonLive(r) && s.singleton
    ensures OnlySingletonLive(StopSingletonStep(r, s))
    ensures StopSingletonStep(r, s).playing == map[]
  {
    var r' := StopSingletonStep(r, s);
    assert forall k :: k !in r'.playing;
    assert r'.playing.Keys == {};
  }

  /**
   * Switching `Singleton` on while two voices play does not stop them: the
   * next play of the singleton player adds a third live voice.
   */
  lemma SingletonSwitchedOnLate(s: Settings, pitch: real, v: Voice)
    requires s.singleton
    ensures var r := Registry(map[0 := Alive(v), 1 := Alive(v)], 2, None);
      var out := PlayStep(r, [Some(Clip("a", 1.0))], s, 0, pitch);
      && out.0 == Ok(Handle(2, 0))
      && out.1.playing.Keys == {0, 1, 2}
  {
  }

  /** `order` lists each key of `keys` exactly once: one enumeration order of the dictionary. */
  ghost predicate IsEnumeration(order: seq<int>, keys: set<int>) {
    && (forall i, j :: 0 <= i < j < |order| ==> order[i] != order[j])
    && (forall i :: 0 <= i < |order| ==> order[i] in keys)
    && (forall k :: k in keys ==> k in order)
  }

  /** The position in `order` of the first destroyed voice, or `|order|` when there is none. */
  function FirstDestroyed(playing: map<int, Slot>, order: seq<int>): (n: nat)
    requires forall i :: 0 <= i < |order| ==> order[i] in playing
    ensures n <= |order|
    ensures forall i :: 0 <= i < n ==> playing[order[i]].Alive?
    ensures n < |order| ==> playing[order[n]] == Destroyed
    ensures (forall i :: 0 <= i < |order| ==> playing[order[i]].Alive?) ==> n == |order|
    decreases |order|
  {
    if order == [] then 0
    else if playing[order[0]].Destroyed? then 0
    else 1 + FirstDestroyed(playing, order[1..])
  }

  /**
   * `ReconfigurePlayingAudioSources` walking the voices in `order`: each voice
   * before the first destroyed one is live-configured (with its own pitch
   * draw), the walk stops at the first destroyed voice, and that voice and
   * every later one are left as they were. No id is added or removed.
   */
  ghost predicate ReconfiguredAlong(before: map<int, Slot>, after: map<int, Slot>, order: seq<int>,
                                    s: Settings, links: LiveLinks)
    requires IsEnumeration(order, before.Keys)
  {
    var n := FirstDestroyed(before, order);
    && after.Keys == before.Keys
    && (forall i :: 0 <= i < n ==>
          && after[order[i]].Alive?
          && (links.pitch ==> PitchIn(after[order[i]].voice.pitch, s.pitch))
          && after[order[i]].voice == LiveConfigured(before[order[i]].voice, s, links, after[order[i]].voice.pitch))
    && (forall i :: n <= i < |order| ==> after[order[i]] == before[order[i]])
  }

  /** When no voice has been destroyed, a reconfiguration reaches every voice, whatever the order. */
  lemma ReconfigureReachesEveryVoice(before: map<int, Slot>, after: map<int, Slot>, order: seq<int>,
                                     s: Settings, links: LiveLinks)
    requires IsEnumeration(order, before.Keys)
    requires forall k :: k in before ==> before[k].Alive?
    requires ReconfiguredAlong(before, after, order, s, links)
    ensures after.Keys == before.Keys
    ensures forall k :: k in after ==>
              after[k].Alive? && after[k].voice == LiveConfigured(before[k].voice, s, links, after[k].voice.pitch)
  {
  }

  /** Without live links a reconfiguration leaves every voice as it was. */
  lemma ReconfigureWithoutLinks(before: map<int, Slot>, after: map<int, Slot>, order: seq<int>, s: Settings)
    requires IsEnumeration(order, before.Keys)
    requires ReconfiguredAlong(before, after, order, s, LiveLinks(false, false, false, false, false))
    ensures after == before
  {
    var n := FirstDestroyed(before, order);
    forall k | k in after ensures after[k] == before[k] {
      var i :| 0 <= i < |order| && order[i] == k;
      if i < n {
        NoLinksChangeNothing(before[k].voice, s, after[k].voice.pitch);
      }
    }
  }

  /**
   * Every reconfiguration draws a new pitch for each live voice when the
   * pitch is live-linked, whichever setter triggered it: after a volume
   * change a voice playing at pitch 1.0 in the range [1, 2] may play at 2.0.
   */
  lemma ReconfigureRedrawsPitch(s: Settings, v: Voice)
    requires s.pitch == PitchRange(1.0, 2.0) && v.pitch == 1.0
    ensures IsEnumeration([0], map[0 := Alive(v)].Keys)
    ensures var links := LiveLinks(false, true, false, true, false);
      && ReconfiguredAlong(map[0 := Alive(v)], map[0 := Alive(LiveConfigured(v, s, links, 2.0))], [0], s, links)
      && LiveConfigured(v, s, links, 2.0).pitch != v.pitch
  {
  }

  /** An operation a caller performs on the registry. */
  datatype Op =
    | PlayIndex(s: Settings, index: int, pitch: real)
    | StopId(id: int)
    | StopSingleton(s: Settings)

  function Step(r: Registry, clips: seq<Option<Clip>>, op: Op): Registry {
    match op
    case PlayIndex(s, index, pitch) => PlayStep(r, clips, s, index, pitch).1
    case StopId(id) => StopStep(r, id).1
    case StopSingleton(s) => StopSingletonStep(r, s)
  }

  /**
   * Performs `ops` in order; returns the final registry and the ids of the
   * new handles allocated along the way (a handle is new exactly when the
   * counter advances).
   */
  function Run(r: Registry, clips: seq<Option<Clip>>, ops: seq<Op>): (Registry, seq<int>)
    decreases |ops|
  {
    if ops == [] then (r, [])
    else
      var r1 := Step(r, clips, ops[0]);
      var issued := if r1.nextId != r.nextId then [r.nextId] else [];
      var (final, rest) := Run(r1, clips, ops[1..]);
      (final, issued + rest)
  }

  /**
   * Ids are never reused: along any sequence of plays and stops, the ids of
   * new handles strictly increase, lie between the starting and the final
   * counter, and none of them was registered at the start; the registry
   * stays valid throughout.
   */
  lemma {:induction false} IdsNeverReused(r: Registry, clips: seq<Option<Clip>>, ops: seq<Op>)
    requires Valid(r)
    ensures var (final, issued) := Run(r, clips, ops);
      && Valid(final)
      && r.nextId <= final.nextId
      && (forall i :: 0 <= i < |issued| ==> r.nextId <= issued[i] < final.nextId && issued[i] !in r.playing)
      && (forall i, j :: 0 <= i < j < |issued| ==> issued[i] < issued[j])
    decreases |ops|
  {
    if ops != [] {
      var r1 := Step(r, clips, ops[0]);
      assert Valid(r1) && (r1.nextId == r.nextId || r1.nextId == r.nextId + 1) by {
        match ops[0]
        case PlayIndex(s, index, pitch) =>
        case StopId(id) =>
        case StopSingleton(s) =>
      }
      IdsNeverReused(r1, clips, ops[1..]);
    }
  }

  /**
   * The singleton promise over any run: when the registry starts within it
   * and every play is made while the player is a singleton, it holds at the
   * end, so at most one voice is live.
   */
  lemma {:induction false} SingletonRunKeepsOneVoice(r: Registry, clips: seq<Option<Clip>>, ops: seq<Op>)
    requires Valid(r) && OnlySingletonLive(r)
    requires forall i :: 0 <= i < |ops| && ops[i].PlayIndex? ==> ops[i].s.singleton
    ensures OnlySingletonLive(Run(r, clips, ops).0)
    ensures forall a, b :: a in Run(r, clips, ops).0.playing && b in Run(r, clips, ops).0.playing ==> a == b
    decreases |ops|
  {
    if ops != [] {
      var r1 := Step(r, clips, ops[0]);
      assert Valid(r1) && OnlySingletonLive(r1) by {
        match ops[0]
        case PlayIndex(s, index, pitch) =>
          PlayKeepsSingleton(r, clips, s, index, pitch);
        case StopId(id) =>
          StopKeepsSingleton(r, id);
        case StopSingleton(s) =>
          if SingletonLive(r, s) {
            StopKeepsSingleton(r, r.singletonHandle.value.id);
          }
      }
      assert forall i :: 0 <= i < |ops[1..]| && ops[1..][i].PlayIndex? ==> ops[1..][i].s.singleton by {
        forall i | 0 <= i < |ops[1..]| && ops[1..][i].PlayIndex? ensures ops[1..][i].s.singleton {
          assert ops[1..][i] == ops[i + 1];
        }
      }
      SingletonRunKeepsOneVoice(r1, clips, ops[1..]);
    }
    OnlySingletonLiveAtMostOne(Run(r, clips, ops).0);
  }
}

=== FILE: player.dfy ===
/**
 * The `AudioPlayer` asset: a clip list, the stored parameters with their
 * live-link flags, and the playback registry that Play, Stop and the
 * parameter setters update in place. Play, PlayNamed, Stop, StopSingleton
 * and OnDisable are proved to make the transition of the matching Playback
 * function; the reconfiguring setters are proved against
 * `Playback.ReconfiguredAlong`, `ConfigureParameters` against
 * `Parameters.Configured` and `Parameters.LiveConfigured`.
 */
module Player {
  import opened AudioTypes
  import opened Parameters
  import opened Playback
  import ClipLookup

  class AudioPlayer {
    /** `_clips`; an unset slot is `None`. */
    var clips: seq<Option<Clip>>
    /** The stored parameters the setters write. */
    var settings: Settings
    /** The `_liveLink*` flags. */
    var links: LiveLinks
    /** `_playingSources`: the live voices by handle id. */
    var playing: map<int, Slot>
    /** `_nextId`: the id the next new handle gets. */
    var nextId: int
    /** `_singletonHandle`: the last handle started while the player was a singleton. */
    var singletonHandle: Option<Handle>

    /** The registry part of the state, as a value. */
    function State(): Registry
      reads this
    {
      Registry(playing, nextId, singletonHandle)
    }

    /** The object invariant: every live id was allocated, so the counter never hands out a live id. */
    ghost predicate Valid()
      reads this
    {
      Playback.Valid(State())
    }

    /** A player asset as loaded: its clips and parameters, nothing playing, the counter at zero. */
    constructor (clips: seq<Option<Clip>>, settings: Settings, links: LiveLinks)
      ensures Valid()
      ensures this.clips == clips && this.settings == settings && this.links == links
      ensures State() == Empty
    {
      this.clips := clips;
      this.settings := settings;
      this.links := links;
      playing := map[];
      nextId := 0;
      singletonHandle := None;
    }

    /** `AudioHandle.IsPlaying`, taken to be "the handle's id is registered". */
    predicate IsPlaying(h: Handle)
      reads this
    {
      Playback.IsPlaying(State(), h)
    }

    /**
     * `Stop(id, fadeTime)`: unregisters a live id and reports whether it was
     * live. The fade-out of a voice that still exists is an audible ramp
     * only; the id leaves the registry at once.
     */
    method Stop(id: int, fadeTime: real) returns (stopped: bool)
      modifies this`playing
      ensures (stopped, State()) == StopStep(old(State()), id)
    {
      if id in playing {
        playing := playing - {id};
        return true;
      }
      return false;
    }

    /** `StopSingleton()`, with `AudioHandle.Stop()` taken to be `Stop(id, interruptFadeTime)`. */
    method StopSingleton()
      modifies this`playing
      ensures State() == StopSingletonStep(old(State()), settings)
    {
      if settings.singleton && singletonHandle.Some? && IsPlaying(singletonHandle.value) {
        var _ := Stop(singletonHandle.value.id, settings.interruptFadeTime);
      }
    }

    /**
     * `ConfigureParameters(source, live)`: writes the stored parameters to a
     * voice, drawing a fresh pitch from the pitch range. A live
     * reconfiguration writes only the live-linked parameters.
     */
    method ConfigureParameters(source: Voice, live: bool) returns (configured: Voice)
      ensures !live ==> PitchIn(configured.pitch, settings.pitch)
      ensures !live ==> configured == Configured(source, settings, configured.pitch)
      ensures live && links.pitch ==> PitchIn(configured.pitch, settings.pitch)
      ensures live ==> configured == LiveConfigured(source, settings, links, configured.pitch)
    {
      configured := source;
      if !live || links.pitch {
        assert PitchIn(settings.pitch.x, settings.pitch);
        var pitch :| PitchIn(pitch, settings.pitch);  // Random.Range(_pitch.x, _pitch.y)
        configured := configured.(pitch := pitch);
      }
      if !live || links.volume {
        configured := configured.(volume := settings.volume);
      }
      if !live || links.distances {
        configured := configured.(minDistance := settings.minDistance, maxDistance := settings.maxDistance);
      }
      if !live || links.loop {
        configured := configured.(loop := settings.loop);
      }
      if !live || links.dopplerLevel {
        configured := configured.(dopplerLevel := settings.dopplerLevel);
      }
    }

    /**
     * `Play(int index)`: singleton arbitration, then a new id, a new voice
     * configured from the stored parameters, and its registration.
     */
    method Play(index: int) returns (r: Result<Handle>)
      requires Valid()
      modifies this`playing, this`nextId, this`singletonHandle
      ensures Valid()
      ensures exists pitch :: PitchIn(pitch, settings.pitch) &&
                (r, State()) == PlayStep(old(State()), clips, settings, index, pitch)
    {
      ghost var before := State();
      ghost var pitch := settings.pitch.x;
      assert PitchIn(pitch, settings.pitch);
      if |clips| == 0 {
        r := Err(NoClipsFound);
        assert (r, State()) == PlayStep(before, clips, settings, index, pitch);
        return;
      }
      if settings.singleton && singletonHandle.Some? && IsPlaying(singletonHandle.value) {
        var current := singletonHandle.value;
        if !settings.allowInterrupt || index == current.clipIndex {
          r := Ok(current);
          assert (r, State()) == PlayStep(before, clips, settings, index, pitch);
          return;
        }
        var _ := Stop(current.id, settings.interruptFadeTime);
      }
      if !(0 <= index < |clips|) {
        r := Err(IndexOutOfRange(index));
        assert (r, State()) == PlayStep(before, clips, settings, index, pitch);
        return;
      }
      var clip := clips[index];
      if clip.None? {
        r := Err(ClipNull(index));
        assert (r, State()) == PlayStep(before, clips, settings, index, pitch);
        return;
      }
      var id := nextId;
      nextId := nextId + 1;
      var handle := Handle(id, index);
      var source := ConfigureParameters(ResetVoice, false);
      source := source.(clip := clip);
      pitch := source.pitch;
      assert id !in playing;  // so Dictionary.Add does not throw
      playing := playing[id := Alive(source)];
      if settings.singleton {
        singletonHandle := Some(handle);
      }
      r := Ok(handle);
      assert (r, State()) == PlayStep(before, clips, settings, index, pitch);
    }

    /**
     * `Play(string clipName)`: a missing or empty name plays a random clip,
     * any other name the first clip with exactly that name, found with the
     * lookup as written (which throws on an unset slot before the match).
     */
    method PlayNamed(clipName: Option<string>) returns (r: Result<Handle>)
      requires Valid()
      modifies this`playing, this`nextId, this`singletonHandle
      ensures Valid()
      ensures exists draw, pitch ::
                && (|clips| > 0 ==> 0 <= draw < |clips|)
                && PitchIn(pitch, settings.pitch)
                && (r, State()) == PlayNamedStep(old(State()), clips, settings, clipName, draw, pitch)
    {
      ghost var before := State();
      assert PitchIn(settings.pitch.x, settings.pitch);
      if |clips| == 0 {
        r := Err(NoClipsFound);
        assert (r, State()) == PlayNamedStep(before, clips, settings, clipName, 0, settings.pitch.x);
        return;
      }
      var index: int;
      if ClipLookup.IsNullOrEmpty(clipName) {
        index :| 0 <= index < |clips|;  // Random.Range(0, _clips.Count)
      } else {
        var found := ClipLookup.FindIndexAsWritten(clips, clipName.value);
        if found.Err? {
          r := Err(found.error);
          assert (r, State()) == PlayNamedStep(before, clips, settings, clipName, 0, settings.pitch.x);
          return;
        }
        index := found.value;
        if index == -1 {
          r := Err(ClipNotFound(clipName.value));
          assert (r, State()) == PlayNamedStep(before, clips, settings, clipName, 0, settings.pitch.x);
          return;
        }
      }
      r := Play(index);
      ghost var pitch :| PitchIn(pitch, settings.pitch) &&
                         (r, State()) == PlayStep(before, clips, settings, index, pitch);
      ghost var draw := if ClipLookup.IsNullOrEmpty(clipName) then index else 0;
      assert (r, State()) == PlayNamedStep(before, clips, settings, clipName, draw, pitch);
    }

    /**
     * `ReconfigurePlayingAudioSources()`: live-configures the voices in the
     * dictionary's enumeration order `order`, stopping at the first one
     * that has been destroyed.
     */
    method ReconfigurePlayingVoices(order: seq<int>)
      requires IsEnumeration(order, playing.Keys)
      modifies this`playing
      ensures ReconfiguredAlong(old(playing), playing, order, settings, links)
    {
      var i := 0;
      while i < |order|
        invariant 0 <= i <= |order|
        invariant playing.Keys == old(playing).Keys
        invariant forall j :: 0 <= j < i ==> old(playing)[order[j]].Alive?
        invariant forall j :: 0 <= j < i ==>
                    && playing[order[j]].Alive?
                    && (links.pitch ==> PitchIn(playing[order[j]].voice.pitch, settings.pitch))
                    && playing[order[j]].voice ==
                       LiveConfigured(old(playing)[order[j]].voice, settings, links, playing[order[j]].voice.pitch)
        invariant forall j :: i <= j < |order| ==> playing[order[j]] == old(playing)[order[j]]
      {
        var id := order[i];
        match playing[id]
        case Destroyed =>
          assert FirstDestroyed(old(playing), order) == i;
          return;
        case Alive(source) =>
          var configured := ConfigureParameters(source, true);
          playing := playing[id := Alive(configured)];
        i := i + 1;
      }
    }

    /**
     * `OnDisable()`: in the editor, reads the clip names (throwing on an unset
     * slot) and then stops with fade time 0 every id of the snapshot `keys`
     * of the dictionary's keys, taken in enumeration order; in a built player
     * it leaves the registry alone. `err` is the exception thrown, if any.
     */
    method OnDisable(inEditor: bool, keys: seq<int>) returns (err: Option<PlayError>)
      requires Valid()
      requires IsEnumeration(keys, playing.Keys)
      modifies this`playing
      ensures Valid()
      ensures (err, State()) == DisableStep(old(State()), clips, inEditor)
      ensures inEditor && (forall i :: 0 <= i < |clips| ==> clips[i].Some?) ==> err == None && playing == map[]
      ensures inEditor && (exists i :: 0 <= i < |clips| && clips[i].None?) ==>
                err == Some(NullReference) && playing == old(playing)
      ensures !inEditor ==> err == None && playing == old(playing)
    {
      err := None;
      if inEditor {
        var names := ClipLookup.ClipNames(clips);
        if names.Err? {
          err := Some(names.error);
          return;
        }
        for i := 0 to |keys|
          invariant playing.Keys == old(playing).Keys - set j | 0 <= j < i :: keys[j]
          invariant Valid()
        {
          var stopped := Stop(keys[i], 0.0);
          assert stopped;
        }
        forall k | k in old(playing) ensures k !in playing {
          var j :| 0 <= j < |keys| && keys[j] == k;
        }
        assert playing.Keys == {};
      }
    }

    /**
     * The engine destroyed the `AudioSource` of a registered voice (the pool
     * or a scene unload): the entry stays, and the source reads it as null.
     */
    method VoiceDestroyed(id: int)
      modifies this`playing
      ensures id in old(playing) ==> playing == old(playing)[id := Destroyed]
      ensures id !in old(playing) ==> playing == old(playing)
    {
      if id in playing {
        playing := playing[id := Destroyed];
      }
    }

    /** The `Loop` setter: nothing happens when the value is unchanged. */
    method SetLoop(value: bool, order: seq<int>)
      requires IsEnumeration(order, playing.Keys)
      modifies this`settings, this`playing
      ensures old(settings.loop) == value ==> settings == old(settings) && playing == old(playing)
      ensures old(settings.loop) != value ==>
                && settings == old(settings).(loop := value)
                && ReconfiguredAlong(old(playing), playing, order, settings, links)
    {
      if settings.loop == value {
        return;
      }
      settings := settings.(loop := value);
      ReconfigurePlayingVoices(order);
    }

    /**
     * The `Pitch` setter: nothing happens when the value equals the stored
     * range under Unity's `Vector2` equality.
     */
    method SetPitch(value: PitchRange, order: seq<int>)
      requires IsEnumeration(order, playing.Keys)
      modifies this`settings, this`playing
      ensures ApproximatelyEqual(old(settings.pitch), value) ==> settings == old(settings) && playing == old(playing)
      ensures !ApproximatelyEqual(old(settings.pitch), value) ==>
                && settings == old(settings).(pitch := value)
                && ReconfiguredAlong(old(playing), playing, order, settings, links)
    {
      if ApproximatelyEqual(settings.pitch, value) {
        return;
      }
      settings := settings.(pitch := value);
      ReconfigurePlayingVoices(order);
    }

    /** The `Volume` setter: always stores and reconfigures. */
    method SetVolume(value: real, order: seq<int>)
      requires IsEnumeration(order, playing.Keys)
      modifies this`settings, this`playing
      ensures settings == old(settings).(volume := value)
      ensures ReconfiguredAlong(old(playing), playing, order, settings, links)
    {
      settings := settings.(volume := value);
      ReconfigurePlayingVoices(order);
    }

    /** The `MinDistance` setter: always stores and reconfigures. */
    method SetMinDistance(value: real, order: seq<int>)
      requires IsEnumeration(order, playing.Keys)
      modifies this`settings, this`playing
      ensures settings == old(settings).(minDistance := value)
      ensures ReconfiguredAlong(old(playing), playing, order, settings, links)
    {
      settings := settings.(minDistance := value);
      ReconfigurePlayingVoices(order);
    }

    /** The `MaxDistance` setter: always stores and reconfigures. */
    method SetMaxDistance(value: real, order: seq<int>)
      requires IsEnumeration(order, playing.Keys)
      modifies this`settings, this`playing
      ensures settings == old(settings).(maxDistance := value)
      ensures ReconfiguredAlong(old(playing), playing, order, settings, links)
    {
      settings := settings.(maxDistance := value);
      ReconfigurePlayingVoices(order);
    }

    /** The `Singleton` setter: stores the flag only. */
    method SetSingleton(value: bool)
      modifies this`settings
      ensures settings == old(settings).(singleton := value)
    {
      settings := settings.(singleton := value);
    }

    /** The `DopplerLevel` setter: stores the value only; live voices keep theirs. */
    method SetDopplerLevel(value: real)
      modifies this`settings
      ensures settings == old(settings).(dopplerLevel := value)
    {
      settings := settings.(dopplerLevel := value);
    }

    /** The `AllowInterrupt` setter: stores the flag only. */
    method SetAllowInterrupt(value: bool)
      modifies this`settings
      ensures settings == old(settings).(allowInterrupt := value)
    {
      settings := settings.(allowInterrupt := value);
    }

    /** The `PlayFadeTime` setter: stores the value only. */
    method SetPlayFadeTime(value: real)
      modifies this`settings
      ensures settings == old(settings).(playFadeTime := value)
    {
      settings := settings.(playFadeTime := value);
    }

    /** The `InterruptFadeTime` setter: stores the value only. */
    method SetInterruptFadeTime(value: real)
      modifies this`settings
      ensures settings == old(settings).(interruptFadeTime := value)
    {
      settings := settings.(interruptFadeTime := value);
    }
  }
}
